=== FILE: README.md ===
# Poker league sign-in pipeline, modelled in Dafny

This project models the sign-in pipeline of a poker-league web client. The client is a
single-threaded UI. A player signs in to tonight's game and gets bonus chips. A tournament
director (TD) pastes or scans the player's sign-in data. The TD then approves or rejects the
pending record, and can later remove approved players.

The pipeline has four parts:

- **Sign-in composer** (`SignIn`, file `signin.dfy`). It holds three inputs:
  - a food-and-drink amount, clamped to whole dollars 0..30;
  - a VIP switch that can only be switched off;
  - a free dealer switch.
  From these it derives the bonus chips: 100 per dollar, plus 1500 for VIP and 1500 for
  dealer. It resets the inputs when sign-in completes. The class `SignInDialog` holds the
  three fields, and its object invariant `Valid()` keeps the amount in range and VIP off.
- **Sign-in intake** (`QRScanner`, file `qrscanner.dfy`). It takes the value `JSON.parse`
  produced, checks the two required fields and builds a pending player record with
  field-by-field defaults. The rule follows JavaScript's `||` and `=== undefined`: `gameId`
  must be truthy, while `totalChips` only needs to be present, so 0 and `null` are accepted.
  The class `ScannerDialog` holds the dialog's `manualInput`, `showManual` and `error`.
- **Approval queue** (`Dashboard`, file `dashboard.dfy`). The class `TDGameDashboard` holds
  one pending slot (the last scan wins) and the ordered player list. Approve appends, reject
  discards and remove filters by id. Two queries give the signed-in count and the chip total
  of the approved entries.
- **Game lookup** (`Games`, file `games.dfy`). It finds the first game with an id across the
  days, in key order. It also gives the venue description with its fallback, decides whether
  the game is today, and builds the detail page, which offers sign-in only for today's game.

Two support modules complete the project:

- `JsText` (`jstext.dfy`) models the two JavaScript text built-ins the core depends on:
  `parseInt` on a number input's value, and the decimal text of an integer, used in
  `scanned-${Date.now()}`.
- `Wrappers` (`wrappers.dfy`) holds the `Option` and `Result` types.

`Players` (`players.dfy`) declares the signed-in player record. Its fields are those of the
object literal the intake builds.

Nondeterministic inputs are parameters:

- `Date.now()` is `now`;
- the random avatar number `Math.floor(Math.random() * 70)` is `avatarIndex`, below 70;
- `new Date().toISOString()` is `nowIso`;
- `new Date().getDay()` is `weekday`, below 7.

Toasts are modelled as returned `Notice` values that the model does not act on.

## Notes on the source's behaviour

- The composer has only the ±5 steppers and typed input. Completing sign-in reports the total
  and resets the form; it builds no payload.
- The dashboard's player list starts as the mock players of the game, whatever their status,
  so the count and the total filter on `status`. Approval appends without checking ids, and
  remove deletes every entry with the id. `DistinctIdsPreserved` states when distinct ids
  survive.
- A payload's `totalChips: null` passes the intake's check and becomes 0, while a missing
  `totalChips` is rejected.

## Model

| member | source | states |
|---|---|---|
| `SignIn.ClampAmount` | src/components/SignInDialog.tsx:40-43 | the amount set is always within 0..30; an in-range value is kept, a negative one becomes 0, one above 30 becomes 30 |
| `SignIn.FoodDrinkChips` | src/components/SignInDialog.tsx:32 | 100 chips per dollar: always whole hundreds, the dollars are recovered by dividing by 100, and an amount in range gives 0..3000 |
| `SignIn.VipChips` | src/components/SignInDialog.tsx:33 | either 0 or 1500, and non-zero exactly when VIP is on |
| `SignIn.DealerChips` | src/components/SignInDialog.tsx:34 | either 0 or 1500, and non-zero exactly when dealer is on |
| `SignIn.TotalChipsOf` | src/components/SignInDialog.tsx:32-38 | the total is the food-and-drink chips plus 0, 1500 or 3000: plus nothing exactly when neither flag is set and 3000 exactly when both are; always a multiple of 100; at most 6000 for an in-range amount and at most 4500 without VIP |
| `SignIn.TypedValue` | src/components/SignInDialog.tsx:128 | typed text with no leading integer (NaN) hands over 0; otherwise the integer `parseInt` reads |
| `SignIn.TypedDecimalAmount` | src/components/SignInDialog.tsx:128 | typing the digits of n (whatever non-digit text follows) sets min(n, 30); typing a negative number sets 0 |
| `SignIn.SignInDialog.constructor` | src/components/SignInDialog.tsx:28-30 | the form starts at amount 0 with VIP and dealer off, which establishes the invariant |
| `SignIn.SignInDialog.TotalChips` | src/components/SignInDialog.tsx:29-38 | in every reachable state the total is a multiple of 100 within 0..4500 and carries no VIP chips |
| `SignIn.SignInDialog.MinusEnabled` | src/components/SignInDialog.tsx:118 | no contract of its own: `PressMinus` states that pressing it when disabled (at 0) changes nothing and otherwise lowers the amount by 5, clamped |
| `SignIn.SignInDialog.PlusEnabled` | src/components/SignInDialog.tsx:141 | no contract of its own: `PressPlus` states that pressing it when disabled (at 30) changes nothing and otherwise raises the amount by 5, clamped |
| `SignIn.SignInDialog.HandleFoodDrinkChange` | src/components/SignInDialog.tsx:40-43 | the amount becomes the clamped value; the flags and the open state are unchanged |
| `SignIn.SignInDialog.HandleTypedAmount` | src/components/SignInDialog.tsx:125-132 | the amount becomes the clamped integer the text starts with; text that does not parse sets 0 |
| `SignIn.SignInDialog.PressMinus` | src/components/SignInDialog.tsx:112-119 | the amount drops by 5 but never below 0; at 0 the disabled button changes nothing |
| `SignIn.SignInDialog.PressPlus` | src/components/SignInDialog.tsx:135-142 | the amount rises by 5 but never above 30; at 30 the disabled button changes nothing |
| `SignIn.SignInDialog.HandleVIPToggle` | src/components/SignInDialog.tsx:45-66 | switching on leaves the VIP flag unchanged and only raises the membership notice; switching off clears the flag; nothing else changes |
| `SignIn.SignInDialog.SetDealer` | src/components/SignInDialog.tsx:177-181 | the dealer flag becomes exactly the value given; nothing else changes |
| `SignIn.SignInDialog.HandleCompleteSignIn` | src/components/SignInDialog.tsx:68-78 | reports the venue and the total reached, closes the dialog, and resets the amount to 0 and both flags to off |
| `SignIn.SignInDialog.SetOpen` | src/components/SignInDialog.tsx:81 | opening the dialog or dismissing it changes only the open state; the amount and both flags are kept, so only completing sign-in resets them |
| `JsText.Decimal` | src/components/QRScannerDialog.tsx:33 | the text of an integer is non-empty, all digits, and starts with 0 only for 0 |
| `JsText.DigitRun` | src/components/SignInDialog.tsx:128 | the longest all-digit prefix: a prefix, all digits, followed by a non-digit or by the end of the text |
| `JsText.ParseInt` | src/components/SignInDialog.tsx:128 | NaN exactly when no digit follows the optional sign; the result is non-positive after a minus and non-negative otherwise |
| `JsText.ParseIntOfDecimal` | src/components/SignInDialog.tsx:128 | `parseInt` reads n back from the digits of n, or -n after a minus, whatever non-digit text follows |
| `JsText.DecimalInjective` | src/components/QRScannerDialog.tsx:33 | distinct integers have distinct decimal texts |
| `QRScanner.ScannedId` | src/components/QRScannerDialog.tsx:33 | every scan id starts with `scanned-` |
| `QRScanner.ScannedIdInjective` | src/components/QRScannerDialog.tsx:33 | scans at different clock readings get different ids |
| `QRScanner.OrStr` | src/components/QRScannerDialog.tsx:34-45 | no contract of its own: `ParseQR` states for each text field that a non-empty value is copied and an absent, null or empty one gives the default |
| `QRScanner.OrInt` | src/components/QRScannerDialog.tsx:38-44 | no contract of its own: `ParseQR` states for each numeric field that a non-zero value is copied and an absent, null or zero one gives 0, and `PresentChipFieldsPreserved` that a present value always arrives unchanged |
| `QRScanner.OrBool` | src/components/QRScannerDialog.tsx:40-42 | no contract of its own: `ParseQR` states that `true` is copied and anything else gives `false` |
| `QRScanner.HasRequiredFields` | src/components/QRScannerDialog.tsx:27 | no contract of its own: `ParseQR` states that a payload is accepted exactly when it holds them (a non-empty game id and a total that is not undefined), and `EmptyObjectRejected`, `ZeroTotalAccepted` and `NullTotalAcceptedEmptyGameRefused` show the edge cases |
| `QRScanner.ParseQR` | src/components/QRScannerDialog.tsx:24-47 | accepted exactly when the value is an object with a truthy `gameId` and a `totalChips` that is not undefined; a parse failure is `MalformedPayload`, anything else rejected is `MissingRequiredField`; an accepted record is pending, has the scan id and the avatar, and copies `gameId` unchanged; each truthy field is copied verbatim, and each falsy one becomes `Guest Player`, `""`, 0, false or the current time |
| `QRScanner.PresentChipFieldsPreserved` | src/components/QRScannerDialog.tsx:37-44 | every chip field present in an accepted payload, zeros and false included, and a present venue name arrive unchanged |
| `QRScanner.EmptyObjectRejected` | src/components/QRScannerDialog.tsx:27-29 | `{}` is rejected for missing fields |
| `QRScanner.ZeroTotalAccepted` | src/components/QRScannerDialog.tsx:27-46 | `{"gameId":"7","totalChips":0}` is accepted as a pending `Guest Player` record with 0 chips for game 7 |
| `QRScanner.NullTotalAcceptedEmptyGameRefused` | src/components/QRScannerDialog.tsx:27-44 | `totalChips: null` is accepted and becomes 0; an empty `gameId` is refused |
| `QRScanner.ChipsNotCrossChecked` | src/components/QRScannerDialog.tsx:36-45 | a total that disagrees with the composer's formula is accepted as it stands |
| `QRScanner.SimulatedPlayer` | src/components/QRScannerDialog.tsx:59-74 | the demo record is a pending record for game 7 with 25 dollars of food and drink, no VIP and dealer on, worth 4000 chips; every chip field agrees with the dialog's formulas |
| `QRScanner.ScannerDialog.constructor` | src/components/QRScannerDialog.tsx:16-18 | empty input, camera view shown, no error |
| `QRScanner.ScannerDialog.SetManualInput` | src/components/QRScannerDialog.tsx:128-133 | the pasted text becomes the input; nothing else changes |
| `QRScanner.ScannerDialog.SetShowManual` | src/components/QRScannerDialog.tsx:122-143 | the paste and back buttons switch manual mode; nothing else changes |
| `QRScanner.ScannerDialog.HandleParseQR` | src/components/QRScannerDialog.tsx:21-55 | hands over exactly the record `ParseQR` accepts; on failure it sets the error text and keeps the input and the mode; on success it clears the error and the input and leaves manual mode |
| `QRScanner.ScannerDialog.HandleSimulateScan` | src/components/QRScannerDialog.tsx:57-82 | hands over the demo record and raises the scanned notice, leaving the dialog's state untouched |
| `Games.FirstMatch` | src/pages/GameDetail.tsx:38 | the position where `find` stops: the first game with the id, or the end when no game has it |
| `Games.FindInDay` | src/pages/GameDetail.tsx:38 | a game found in a day has the id and is the first game of that day with the id; nothing is found exactly when no game of the day has the id |
| `Games.FindGame` | src/pages/GameDetail.tsx:36-42 | a found game has the id; the lookup gives null exactly when no day holds the id |
| `Games.FindGameFirstDay` | src/pages/GameDetail.tsx:36-42 | the lookup returns the first matching game of the first day that holds the id, tagged with that day |
| `Games.LookupGame` | src/pages/TDGameDashboard.tsx:24-30 | the loop with its early return computes exactly that lookup |
| `Games.VenueDescription` | src/pages/GameDetail.tsx:10-28 | a known venue gets its table entry and any other name gets the default sentence; the result is never empty |
| `Games.IsToday` | src/pages/GameDetail.tsx:45-50 | false for a missing game; otherwise true exactly when the game's day is the Sun..Sat name at today's index |
| `Games.TodayOnOneWeekday` | src/pages/GameDetail.tsx:45-50 | a game counts as today on at most one weekday |
| `Games.GameDetailPage` | src/pages/GameDetail.tsx:52-175 | the not-found view exactly when no day holds the id; otherwise the game the lookup returns, with its venue description, and sign-in offered exactly when that game is today |
| `Dashboard.Filter` | src/pages/TDGameDashboard.tsx:71 | the result holds exactly the kept elements and is no longer than the input |
| `Dashboard.FilterAppend` | src/pages/TDGameDashboard.tsx:71 | filtering distributes over concatenation, so the kept entries stay in order |
| `Dashboard.SumChips` | src/pages/TDGameDashboard.tsx:115 | non-negative chip counts sum to a non-negative total, and multiples of 100 sum to a multiple of 100 |
| `Dashboard.SumChipsSplit` | src/pages/TDGameDashboard.tsx:115 | the chip sum is the sum over the entries a filter keeps plus the sum over those it drops |
| `Dashboard.ApprovedPlayers` | src/pages/TDGameDashboard.tsx:78 | holds exactly the approved entries of the list and is no longer than it |
| `Dashboard.TotalChips` | src/pages/TDGameDashboard.tsx:115 | non-negative when every entry's total is, whole hundreds when every entry's total is, and 0 when nothing is approved; `ApproveAddsOne` and `RemoveLowersTotal` state how approve and remove change it |
| `Dashboard.SignedInCount` | src/pages/TDGameDashboard.tsx:78-107 | the count equals the number of approved entries, counted one entry at a time; it is at most the list length and 0 exactly when no entry is approved |
| `Dashboard.Remove` | src/pages/TDGameDashboard.tsx:70-71 | an entry is kept exactly when it was in the list and has a different id |
| `Dashboard.Approve` | src/pages/TDGameDashboard.tsx:52 | the appended copy is approved and agrees with the pending record in every other field |
| `Dashboard.ApproveAddsOne` | src/pages/TDGameDashboard.tsx:50-58 | approving appends exactly one approved entry: the count rises by one and the total by its chips |
| `Dashboard.RemoveLowersTotal` | src/pages/TDGameDashboard.tsx:70-115 | after removing an id, the chip total is the old total minus the chips of the approved entries with that id |
| `Dashboard.RemoveLowersCount` | src/pages/TDGameDashboard.tsx:70-107 | after removing an id, the signed-in count is the old count minus the number of approved entries with that id |
| `Dashboard.RemoveKeepsOrder` | src/pages/TDGameDashboard.tsx:71 | removal keeps the other entries in their original order: removing from a + b is removing from a followed by removing from b |
| `Dashboard.RemoveIdempotent` | src/pages/TDGameDashboard.tsx:71 | removing an id twice is the same as removing it once |
| `Dashboard.RemoveUndoesApprove` | src/pages/TDGameDashboard.tsx:52-71 | removing a just-approved entry whose id was new gives back the list as it was before the approval |
| `Dashboard.DistinctIdsPreserved` | src/pages/TDGameDashboard.tsx:52-71 | distinct ids survive the approval of a record with a new id, and always survive removal |
| `Dashboard.TDGameDashboard.constructor` | src/pages/TDGameDashboard.tsx:14-30 | the list starts as the mock players of the route's game, in order, with nothing pending and the scanner closed; the game is the lookup's result |
| `Dashboard.TDGameDashboard.SignedIn` | src/pages/TDGameDashboard.tsx:107 | the "Signed In" card never exceeds the length of the list; `HandleApprovePlayer` and `HandleRemovePlayer` state how it changes |
| `Dashboard.TDGameDashboard.ChipTotal` | src/pages/TDGameDashboard.tsx:115 | the "Total Chips" card is non-negative when every entry's total is; `HandleApprovePlayer` and `HandleRemovePlayer` state how it changes |
| `Dashboard.TDGameDashboard.OpenScanner` | src/pages/TDGameDashboard.tsx:123-125 | opens the scanner; the list and the pending slot are unchanged |
| `Dashboard.TDGameDashboard.CloseScanner` | src/pages/TDGameDashboard.tsx:232-233 | dismissing the scanner closes it; the list and the pending slot are unchanged |
| `Dashboard.TDGameDashboard.HandleQRScanned` | src/pages/TDGameDashboard.tsx:45-48 | the scanned record replaces whatever was pending and the scanner closes; the list is unchanged |
| `Dashboard.TDGameDashboard.HandleApprovePlayer` | src/pages/TDGameDashboard.tsx:50-59 | with a pending record, it appends one approved copy, clears the slot, raises the count by one and the total by its chips, and the notice names the player or `Player`; with none pending, nothing changes |
| `Dashboard.TDGameDashboard.HandleRejectPlayer` | src/pages/TDGameDashboard.tsx:61-68 | clears the pending slot and leaves the list unchanged |
| `Dashboard.TDGameDashboard.HandleRemovePlayer` | src/pages/TDGameDashboard.tsx:70-76 | the list becomes the old list without that id; the count drops by the number, and the total by the chips, of the approved entries with that id; the pending slot is unchanged |

## Left out

- Rendering, styling, icons and dialogs are left out. Toasts appear only as returned `Notice` values.
- The dashboard's handlers are not gated on the lookup result. The page defines them only after the not-found check; the model keeps the lookup result in `game`.
- The grammar of `JSON.parse` is left out. `HandleParseQR` receives the parse result (`Parsed`) as a parameter, so the model does not tie it to the text in `manualInput`.
- Payload properties whose JSON type differs from the field's type are left out: a numeric `gameId`, a string `totalChips`, nested objects. Each field is modelled as missing, `null`, or a value of its own type. A wrong type would be copied verbatim by `||`, and a string total would turn the dashboard's sum into concatenation.
- Fractional numbers and the limits of JavaScript numbers are left out. Amounts and chips are unbounded integers, which agree with JavaScript's doubles below 2^53. Because integer addition is associative, `SumChips` adds from the front where `reduce` folds from the left.
- `JsText.ParseInt`: it does not model `parseInt`'s skipping of leading whitespace or its `0x` hexadecimal prefix. A number input's value never contains either.
- `Games.VenueDescription`: names that hit inherited object properties (such as `constructor`) are left out. For those names the JavaScript lookup would return a function, not the fallback.
- Camera scanning is left out, because the source shows only a placeholder. No start/stop lifecycle is modelled.
- `SignedInPlayer` and `mockSignedInPlayers` are not part of this model. The record is declared from the intake's field list, and the initial list is a constructor parameter.
- The contents of the game table are not part of this model. The schedule is a parameter, in key order.
- The other screens (news, events, leaderboards, profile, navigation) are left out, and so is the directions button's URL building.
- React's state batching and stale closures are left out. Each handler runs to completion on the state left by the previous one.

=== FILE: dashboard.dfy ===
/**
 * The tournament director's dashboard for one game: a single "pending" slot
 * filled by the scanner (last scan wins), and the ordered player list that
 * approve appends to and remove filters.
 */
module Dashboard {
  import opened Wrappers
  import opened Players
  import Games

  /** `s.filter(keep)`: the kept elements, in their original order. */
  function Filter(s: seq<SignedInPlayer>, keep: SignedInPlayer -> bool): (r: seq<SignedInPlayer>)
    ensures |r| <= |s|
    ensures forall p :: p in r <==> p in s && keep(p)
    decreases |s|
  {
    if s == [] then []
    else (if keep(s[0]) then [s[0]] else []) + Filter(s[1..], keep)
  }

  /** Filtering distributes over concatenation, so it keeps relative order. */
  lemma {:induction false} FilterAppend(a: seq<SignedInPlayer>, b: seq<SignedInPlayer>, keep: SignedInPlayer -> bool)
    ensures Filter(a + b, keep) == Filter(a, keep) + Filter(b, keep)
    decreases |a|
  {
    if a == [] {
      assert a + b == b;
    } else {
      assert (a + b)[1..] == a[1..] + b;
      FilterAppend(a[1..], b, keep);
    }
  }

  /** Filtering a list whose every element is kept changes nothing. */
  lemma {:induction false} FilterKeepsAll(s: seq<SignedInPlayer>, keep: SignedInPlayer -> bool)
    requires forall p :: p in s ==> keep(p)
    ensures Filter(s, keep) == s
    decreases |s|
  {
    if s != [] {
      FilterKeepsAll(s[1..], keep);
    }
  }

  /** Two filters can be applied in either order. */
  lemma {:induction false} FilterCommutes(s: seq<SignedInPlayer>, f: SignedInPlayer -> bool, g: SignedInPlayer -> bool)
    ensures Filter(Filter(s, f), g) == Filter(Filter(s, g), f)
    decreases |s|
  {
    if s != [] {
      FilterCommutes(s[1..], f, g);
      var h := [s[0]];
      FilterAppend(if f(s[0]) then h else [], Filter(s[1..], f), g);
      FilterAppend(if g(s[0]) then h else [], Filter(s[1..], g), f);
    }
  }

  /** `reduce((acc, p) => acc + p.totalChips, 0)`. */
  function SumChips(ps: seq<SignedInPlayer>): (r: int)
    ensures (forall p :: p in ps ==> p.totalChips >= 0) ==> r >= 0
    ensures (forall p :: p in ps ==> p.totalChips % 100 == 0) ==> r % 100 == 0
    decreases |ps|
  {
    if ps == [] then 0 else ps[0].totalChips + SumChips(ps[1..])
  }

  /** The entries a filter drops. */
  function Complement(keep: SignedInPlayer -> bool): SignedInPlayer -> bool
  {
    (p: SignedInPlayer) => !keep(p)
  }

  /** The chips of a list are those of the entries one filter keeps plus those
      of the entries it drops. */
  lemma {:induction false} SumChipsSplit(s: seq<SignedInPlayer>, keep: SignedInPlayer -> bool)
    ensures SumChips(s) == SumChips(Filter(s, keep)) + SumChips(Filter(s, Complement(keep)))
    decreases |s|
  {
    if s != [] {
      var drop := Complement(keep);
      var h := [s[0]];
      SumChipsSplit(s[1..], keep);
      SumChipsAppend(if keep(s[0]) then h else [], Filter(s[1..], keep));
      SumChipsAppend(if drop(s[0]) then h else [], Filter(s[1..], drop));
    }
  }

  lemma {:induction false} SumChipsAppend(a: seq<SignedInPlayer>, b: seq<SignedInPlayer>)
    ensures SumChips(a + b) == SumChips(a) + SumChips(b)
    decreases |a|
  {
    if a == [] {
      assert a + b == b;
    } else {
      assert (a + b)[1..] == a[1..] + b;
      SumChipsAppend(a[1..], b);
    }
  }

  predicate IsApproved(p: SignedInPlayer)
  {
    p.status == Approved
  }

  /** The filter `remove(id)` applies. */
  function WithoutId(id: string): SignedInPlayer -> bool
  {
    (p: SignedInPlayer) => p.id != id
  }

  /** The complement of `WithoutId(id)`. */
  function WithId(id: string): SignedInPlayer -> bool
  {
    (p: SignedInPlayer) => p.id == id
  }

  /** The initial list filter: the players of one game. */
  function ForGame(gameId: string): SignedInPlayer -> bool
  {
    (p: SignedInPlayer) => p.gameId == gameId
  }

  /** `players.filter(p => p.status === 'approved')`. */
  function ApprovedPlayers(ps: seq<SignedInPlayer>): (r: seq<SignedInPlayer>)
    ensures |r| <= |ps|
    ensures forall p :: p in r <==> p in ps && p.status == Approved
  {
    Filter(ps, IsApproved)
  }

  /** The number of approved entries, counted one entry at a time. */
  function CountApproved(ps: seq<SignedInPlayer>): nat
    decreases |ps|
  {
    if ps == [] then 0 else (if IsApproved(ps[0]) then 1 else 0) + CountApproved(ps[1..])
  }

  /** The "Signed In" figure: `approvedPlayers.length`. */
  function SignedInCount(ps: seq<SignedInPlayer>): (n: nat)
    ensures n == CountApproved(ps)
    ensures n <= |ps|
    ensures n == 0 <==> forall p :: p in ps ==> !IsApproved(p)
  {
    var approved := ApprovedPlayers(ps);
    assert approved != [] ==> approved[0] in approved;
    FilterCounts(ps);
    |approved|
  }

  /** The approved filter keeps one element per approved entry. */
  lemma {:induction false} FilterCounts(ps: seq<SignedInPlayer>)
    ensures |Filter(ps, IsApproved)| == CountApproved(ps)
    decreases |ps|
  {
    if ps != [] {
      FilterCounts(ps[1..]);
    }
  }

  /** A filter and its complement split a list between them. */
  lemma {:induction false} FilterSplitsLength(s: seq<SignedInPlayer>, keep: SignedInPlayer -> bool)
    ensures |Filter(s, keep)| + |Filter(s, Complement(keep))| == |s|
    decreases |s|
  {
    if s != [] {
      FilterSplitsLength(s[1..], keep);
    }
  }

  /** Removing an id lowers the signed-in count by exactly the number of
      approved entries carrying that id. */
  lemma RemoveLowersCount(ps: seq<SignedInPlayer>, id: string)
    ensures SignedInCount(Remove(ps, id)) == SignedInCount(ps) - |Filter(ApprovedPlayers(ps), WithId(id))|
  {
    var approved := ApprovedPlayers(ps);
    FilterCommutes(ps, WithoutId(id), IsApproved);
    FilterSplitsLength(approved, WithId(id));
    FilterSameKeep(approved, Complement(WithId(id)), WithoutId(id));
  }

  /** The "Total Chips" figure: chips of approved entries only. */
  function TotalChips(ps: seq<SignedInPlayer>): (t: int)
    ensures (forall p :: p in ps ==> p.totalChips >= 0) ==> t >= 0
    ensures (forall p :: p in ps ==> p.totalChips % 100 == 0) ==> t % 100 == 0
    ensures (forall p :: p in ps ==> !IsApproved(p)) ==> t == 0
  {
    var approved := ApprovedPlayers(ps);
    assert approved != [] ==> approved[0] in approved;
    SumChips(approved)
  }

  /** `players.filter(p => p.id !== playerId)`. */
  function Remove(ps: seq<SignedInPlayer>, id: string): (r: seq<SignedInPlayer>)
    ensures forall p :: p in r <==> p in ps && p.id != id
  {
    Filter(ps, WithoutId(id))
  }

  /** The entry approval appends. */
  function Approve(p: SignedInPlayer): (q: SignedInPlayer)
    ensures q.status == Approved && q.id == p.id && q.totalChips == p.totalChips && q.name == p.name
    ensures q.(status := p.status) == p
  {
    p.(status := Approved)
  }

  /** Approving appends exactly one approved entry: the count rises by one and
      the total by that entry's chips. */
  lemma ApproveAddsOne(ps: seq<SignedInPlayer>, p: SignedInPlayer)
    ensures ApprovedPlayers(ps + [Approve(p)]) == ApprovedPlayers(ps) + [Approve(p)]
    ensures SignedInCount(ps + [Approve(p)]) == SignedInCount(ps) + 1
    ensures TotalChips(ps + [Approve(p)]) == TotalChips(ps) + p.totalChips
  {
    FilterAppend(ps, [Approve(p)], IsApproved);
    assert Filter([Approve(p)], IsApproved) == [Approve(p)];
    SumChipsAppend(ApprovedPlayers(ps), [Approve(p)]);
  }

  /** Removing an id lowers the total by exactly the chips of the approved
      entries carrying that id. */
  lemma RemoveLowersTotal(ps: seq<SignedInPlayer>, id: string)
    ensures TotalChips(Remove(ps, id)) == TotalChips(ps) - SumChips(Filter(ApprovedPlayers(ps), WithId(id)))
  {
    var approved := ApprovedPlayers(ps);
    FilterCommutes(ps, WithoutId(id), IsApproved);
    SumChipsSplit(approved, WithId(id));
    FilterSameKeep(approved, Complement(WithId(id)), WithoutId(id));
  }

  /** Filters that keep the same elements give the same list. */
  lemma {:induction false} FilterSameKeep(s: seq<SignedInPlayer>, f: SignedInPlayer -> bool, g: SignedInPlayer -> bool)
    requires forall p :: f(p) == g(p)
    ensures Filter(s, f) == Filter(s, g)
    decreases |s|
  {
    if s != [] {
      FilterSameKeep(s[1..], f, g);
    }
  }

  /** Removing keeps every other entry, in order: the list is split at any
      point and each part filtered on its own. */
  lemma RemoveKeepsOrder(a: seq<SignedInPlayer>, b: seq<SignedInPlayer>, id: string)
    ensures Remove(a + b, id) == Remove(a, id) + Remove(b, id)
  {
    FilterAppend(a, b, WithoutId(id));
  }

  /** Removing twice is removing once. */
  lemma RemoveIdempotent(ps: seq<SignedInPlayer>, id: string)
    ensures Remove(Remove(ps, id), id) == Remove(ps, id)
  {
    FilterKeepsAll(Remove(ps, id), WithoutId(id));
  }

  /** Removing an approved entry whose id was new undoes the approval. */
  lemma RemoveUndoesApprove(ps: seq<SignedInPlayer>, p: SignedInPlayer)
    requires forall q :: q in ps ==> q.id != p.id
    ensures Remove(ps + [Approve(p)], p.id) == ps
  {
    FilterAppend(ps, [Approve(p)], WithoutId(p.id));
    FilterKeepsAll(ps, WithoutId(p.id));
    assert Filter([Approve(p)], WithoutId(p.id)) == [];
  }

  /** No two entries share an id. */
  predicate DistinctIds(ps: seq<SignedInPlayer>)
  {
    forall i, j :: 0 <= i < j < |ps| ==> ps[i].id != ps[j].id
  }

  /** Approving an entry with a new id keeps the ids distinct, and removal
      always does. */
  lemma {:induction false} DistinctIdsPreserved(ps: seq<SignedInPlayer>, p: SignedInPlayer, id: string)
    requires DistinctIds(ps)
    ensures (forall q :: q in ps ==> q.id != p.id) ==> DistinctIds(ps + [Approve(p)])
    ensures DistinctIds(Remove(ps, id))
  {
    FilterDistinct(ps, WithoutId(id));
  }

  lemma {:induction false} FilterDistinct(s: seq<SignedInPlayer>, keep: SignedInPlayer -> bool)
    requires DistinctIds(s)
    ensures DistinctIds(Filter(s, keep))
    decreases |s|
  {
    if s != [] {
      FilterDistinct(s[1..], keep);
      var rest := Filter(s[1..], keep);
      forall q | q in rest ensures q.id != s[0].id {
        var k :| 1 <= k < |s| && s[k] == q;
      }
    }
  }

  /** What the dashboard asks its toast collaborator to show. */
  datatype Notice = PlayerApproved(name: string) | PlayerRejected | PlayerRemoved

  class TDGameDashboard {
    /** The route's game id. */
    const gameId: string
    /** The game the page manages; None shows the not-found view. */
    const game: Option<Games.FoundGame>
    var scannerOpen: bool
    var players: seq<SignedInPlayer>
    var pendingPlayer: Option<SignedInPlayer>

    /** The page starts with the mock players of this game and nothing pending. */
    constructor (gameId: string, mockPlayers: seq<SignedInPlayer>, schedule: seq<Games.DaySchedule>)
      ensures this.gameId == gameId && game == Games.FindGame(schedule, gameId)
      ensures players == Filter(mockPlayers, ForGame(gameId))
      ensures forall p :: p in players <==> p in mockPlayers && p.gameId == gameId
      ensures pendingPlayer == None && !scannerOpen
    {
      var found := Games.LookupGame(schedule, gameId);
      this.gameId := gameId;
      game := found;
      players := Filter(mockPlayers, ForGame(gameId));
      pendingPlayer := None;
      scannerOpen := false;
    }

    /** The "Signed In" card. */
    function SignedIn(): (n: nat)
      reads this
      ensures n <= |players|
    {
      SignedInCount(players)
    }

    /** The "Total Chips" card. */
    function ChipTotal(): (t: int)
      reads this
      ensures (forall p :: p in players ==> p.totalChips >= 0) ==> t >= 0
    {
      TotalChips(players)
    }

    /** The "Scan Player QR Code" button. */
    method OpenScanner()
      modifies this
      ensures scannerOpen && players == old(players) && pendingPlayer == old(pendingPlayer)
    {
      scannerOpen := true;
    }

    /** Dismissing the scanner dialog without a scan. */
    method CloseScanner()
      modifies this
      ensures !scannerOpen && players == old(players) && pendingPlayer == old(pendingPlayer)
    {
      scannerOpen := false;
    }

    /** A scanned record replaces whatever was pending, and the scanner closes. */
    method HandleQRScanned(data: SignedInPlayer)
      modifies this
      ensures pendingPlayer == Some(data) && !scannerOpen
      ensures players == old(players)
    {
      pendingPlayer := Some(data);
      scannerOpen := false;
    }

    /** Appends the pending record, marked approved, and clears the slot; with
        nothing pending it does nothing. */
    method HandleApprovePlayer() returns (notice: Option<Notice>)
      modifies this
      ensures old(pendingPlayer).None? ==> notice == None && players == old(players) && pendingPlayer == None
      ensures old(pendingPlayer).Some? ==>
        var p := old(pendingPlayer).value;
        && players == old(players) + [Approve(p)]
        && pendingPlayer == None
        && notice == Some(PlayerApproved(if p.name != "" then p.name else "Player"))
        && SignedIn() == old(SignedIn()) + 1
        && ChipTotal() == old(ChipTotal()) + p.totalChips
      ensures scannerOpen == old(scannerOpen)
    {
      notice := None;
      if pendingPlayer.Some? {
        var p := pendingPlayer.value;
        ApproveAddsOne(players, p);
        players := players + [Approve(p)];
        notice := Some(PlayerApproved(if p.name != "" then p.name else "Player"));
        pendingPlayer := None;
      }
    }

    /** Drops the pending record; the list is untouched. */
    method HandleRejectPlayer() returns (notice: Notice)
      modifies this
      ensures pendingPlayer == None && players == old(players) && notice == PlayerRejected
      ensures scannerOpen == old(scannerOpen)
    {
      pendingPlayer := None;
      notice := PlayerRejected;
    }

    /** Deletes every entry with this id, keeping the others in order. */
    method HandleRemovePlayer(playerId: string) returns (notice: Notice)
      modifies this
      ensures players == Remove(old(players), playerId)
      ensures ChipTotal() == old(ChipTotal()) - SumChips(Filter(ApprovedPlayers(old(players)), WithId(playerId)))
      ensures SignedIn() == old(SignedIn()) - |Filter(ApprovedPlayers(old(players)), WithId(playerId))|
      ensures pendingPlayer == old(pendingPlayer) && scannerOpen == old(scannerOpen) && notice == PlayerRemoved
    {
      RemoveLowersTotal(players, playerId);
      RemoveLowersCount(players, playerId);
      players := Remove(players, playerId);
      notice := PlayerRemoved;
    }
  }
}

=== FILE: games.dfy ===
/**
 * Games by weekday: finding a game by id across the days, the venue blurb
 * with its fallback, and whether a game is on today, which decides whether the
 * detail page offers sign-in.
 */
module Games {
  import opened Wrappers

  datatype Game = Game(
    id: string,
    time: string,
    venueName: string,
    venueImage: string,
    location: string,
    gameType: string,
    prizeAmount: string,
    ageRequirement: string)

  /** One key of the games-by-day table and its games, in table order. */
  datatype DaySchedule = DaySchedule(day: string, games: seq<Game>)

  /** A game tagged with the day it was found under (`{ ...found, day }`). */
  datatype FoundGame = FoundGame(game: Game, day: string)

  /** The index of the first game with id `id`, or `|games|` when there is none:
      where `games.find(g => g.id === id)` stops. */
  function FirstMatch(games: seq<Game>, id: string): (k: nat)
    ensures k <= |games|
    ensures k < |games| ==> games[k].id == id
    ensures forall j :: 0 <= j < k ==> games[j].id != id
    decreases |games|
  {
    if games == [] then 0
    else if games[0].id == id then 0
    else 1 + FirstMatch(games[1..], id)
  }

  /** `games.find(g => g.id === id)`. */
  function FindInDay(games: seq<Game>, id: string): (r: Option<Game>)
    ensures r.Some? ==> r.value.id == id && r.value in games
    ensures r.None? <==> forall g :: g in games ==> g.id != id
    ensures r.Some? ==> exists k :: 0 <= k < |games| && games[k] == r.value
                                    && (forall j :: 0 <= j < k ==> games[j].id != id)
  {
    var k := FirstMatch(games, id);
    if k < |games| then Some(games[k]) else None
  }

  /** No day before `i` holds a game with this id. */
  predicate NoneBefore(schedule: seq<DaySchedule>, id: string, i: int)
    requires 0 <= i <= |schedule|
  {
    forall j :: 0 <= j < i ==> FindInDay(schedule[j].games, id).None?
  }

  /** The lookup both pages memoise: the first day (in key order) holding a
      game with that id, and the first such game within it. */
  function FindGame(schedule: seq<DaySchedule>, id: string): (r: Option<FoundGame>)
    ensures r.Some? ==> r.value.game.id == id
    ensures r.None? <==> NoneBefore(schedule, id, |schedule|)
    decreases |schedule|
  {
    if schedule == [] then None
    else match FindInDay(schedule[0].games, id)
      case Some(g) => Some(FoundGame(g, schedule[0].day))
      case None =>
        var r := FindGame(schedule[1..], id);
        assert forall j :: 1 <= j < |schedule| ==> schedule[j] == schedule[1..][j - 1];
        r
  }

  /** The lookup settles on day `i` when that is the first day holding the id,
      and returns the first matching game of that day. */
  lemma {:induction false} FindGameFirstDay(schedule: seq<DaySchedule>, id: string, i: nat)
    requires i < |schedule|
    requires NoneBefore(schedule, id, i)
    requires FindInDay(schedule[i].games, id).Some?
    ensures FindGame(schedule, id) == Some(FoundGame(FindInDay(schedule[i].games, id).value, schedule[i].day))
    decreases i
  {
    if i > 0 {
      assert FindInDay(schedule[0].games, id).None?;
      assert schedule[1..][i - 1] == schedule[i];
      assert forall j :: 0 <= j < i - 1 ==> schedule[1..][j] == schedule[j + 1];
      FindGameFirstDay(schedule[1..], id, i - 1);
    }
  }

  /** The `for (const day of Object.keys(gamesByDay))` loop with its early
      return, as the pages run it. */
  method LookupGame(schedule: seq<DaySchedule>, id: string) returns (r: Option<FoundGame>)
    ensures r == FindGame(schedule, id)
  {
    for i := 0 to |schedule|
      invariant NoneBefore(schedule, id, i)
    {
      var found := FindInDay(schedule[i].games, id);
      if found.Some? {
        FindGameFirstDay(schedule, id, i);
        return Some(FoundGame(found.value, schedule[i].day));
      }
    }
    return None;
  }

  const DefaultVenueDescription := "Join us for an exciting evening of poker at one of Atlanta's finest venues. Experience great food, drinks, and competitive card play in a welcoming atmosphere."

  /** The venue blurbs, keyed by venue name. */
  const VenueDescriptions: map<string, string> := map[
      "The Brass Tap" := "Experience craft beer excellence while you play! The Brass Tap offers an upscale sports bar atmosphere with over 60 beers on tap. Our poker corner features comfortable seating, great lighting, and a friendly crowd of regulars. Perfect for both beginners and seasoned players.",
      "Mac McGee's" := "Step into Atlanta's favorite Irish pub for a night of cards and craic! Mac McGee's brings authentic Irish hospitality to your poker experience. Enjoy traditional pub fare, excellent whiskey selection, and a lively atmosphere that makes every hand memorable.",
      "Taco Mac" := "Your neighborhood wing and beer joint with a passion for poker! Taco Mac offers a casual, sports-focused environment with massive TV screens and an extensive beer menu. Our weekly games attract a fun, competitive crowd looking for good times and great cards.",
      "Hudson Grille" := "Upscale American dining meets competitive poker at Hudson Grille. Enjoy premium cocktails and elevated pub cuisine in a sophisticated yet welcoming setting. Our Midtown location draws professionals looking to unwind with a friendly game after work.",
      "Whitehall Tavern" := "Buckhead's premier destination for craft cocktails and poker action! Whitehall Tavern combines trendy nightlife vibes with serious card play. The modern industrial decor and energetic crowd create the perfect backdrop for an exciting night at the tables.",
      "The Local No. 7" := "A true neighborhood gem in Tucker! The Local No. 7 prides itself on community and camaraderie. Our poker nights feature a welcoming mix of regulars and newcomers, fantastic bar food, and an atmosphere that feels like playing cards at a friend's house.",
      "Marlow's Tavern" := "Southern hospitality at its finest! Marlow's Tavern offers farm-to-table American tavern fare in a refined yet relaxed setting. Our Sandy Springs location hosts some of the most competitive games in the league, with players who appreciate both good food and good poker.",
      "Stats Brewpub" := "Downtown Atlanta's ultimate sports and poker destination! Stats Brewpub features house-crafted beers, massive screens for game-watching, and dedicated poker tables. The energy here is unmatched, especially on game nights when the city comes alive.",
      "Big Game Sports Bar" := "Go big or go home at Big Game Sports Bar! This Roswell hotspot is known for high-energy poker nights with fantastic drink specials. The spacious layout ensures comfortable play, and the enthusiastic staff keeps the games running smoothly.",
      "Fadó Irish Pub" := "Authentic Irish atmosphere in the heart of Buckhead! Fadó brings the spirit of a Dublin pub to your poker game. Enjoy perfectly poured Guinness, traditional Irish dishes, and a warm, welcoming environment that makes late-night games feel special.",
      "Schoolhouse Brewing" := "Where craft beer meets competitive cards! Schoolhouse Brewing in Marietta offers unique house-made beers in a converted schoolhouse setting. The quirky, creative atmosphere attracts a diverse crowd of beer enthusiasts and poker lovers alike.",
      "The Fred" := "Johns Creek's premier entertainment venue for serious poker! The Fred hosts our biggest tournaments with professional-grade equipment and dedicated staff. The spacious layout and focused atmosphere make it the go-to spot for players chasing the big prizes.",
      "Vortex Bar & Grill" := "Little Five Points' legendary burger joint brings attitude to the poker table! The Vortex is famous for outrageous burgers and an unapologetically unique atmosphere. Our games here attract players who appreciate character, creativity, and competition."
    ]

  /** `venueDescriptions[venueName] || default`. */
  function VenueDescription(venueName: string): (r: string)
    ensures venueName in VenueDescriptions ==> r == VenueDescriptions[venueName]
    ensures venueName !in VenueDescriptions ==> r == DefaultVenueDescription
    ensures r != ""
  {
    if venueName in VenueDescriptions && VenueDescriptions[venueName] != "" then VenueDescriptions[venueName]
    else DefaultVenueDescription
  }

  /** `getDay()` indexes this list. */
  const DayNames := ["Sun", "Mon", "Tue", "Wed", "Thu", "Fri", "Sat"]

  /** Whether the looked-up game falls on today's weekday; `weekday` is
      `new Date().getDay()`. */
  function IsToday(game: Option<FoundGame>, weekday: nat): (r: bool)
    requires weekday < |DayNames|
    ensures game.None? ==> !r
    ensures r ==> game.Some? && game.value.day == DayNames[weekday]
    ensures game.Some? && game.value.day == DayNames[weekday] ==> r
  {
    match game
    case None => false
    case Some(g) => g.day == DayNames[weekday]
  }

  /** A game is "today" on at most one weekday. */
  lemma TodayOnOneWeekday(game: Option<FoundGame>, a: nat, b: nat)
    requires a < |DayNames| && b < |DayNames|
    requires IsToday(game, a) && IsToday(game, b)
    ensures a == b
  {
  }

  /** What the detail page shows: the not-found view, or the game with its
      venue blurb and, for today's game only, the sign-in button. */
  datatype DetailPage = NotFound | Detail(found: FoundGame, description: string, signInOffered: bool)

  function GameDetailPage(schedule: seq<DaySchedule>, gameId: string, weekday: nat): (page: DetailPage)
    requires weekday < |DayNames|
    ensures page.NotFound? <==> NoneBefore(schedule, gameId, |schedule|)
    ensures page.Detail? ==> page.found.game.id == gameId
    ensures page.Detail? ==> FindGame(schedule, gameId) == Some(page.found)
    ensures page.Detail? ==> page.signInOffered == IsToday(FindGame(schedule, gameId), weekday)
    ensures page.Detail? ==> page.description == VenueDescription(page.found.game.venueName)
    ensures page.Detail? ==> (page.signInOffered <==> page.found.day == DayNames[weekday])
  {
    var game := FindGame(schedule, gameId);
    match game
    case None => NotFound
    case Some(g) => Detail(g, VenueDescription(g.game.venueName), IsToday(game, weekday))
  }
}

=== FILE: jstext.dfy ===
/**
 * The two pieces of JavaScript text handling the sign-in pipeline leans on:
 * `parseInt` applied to the value of a number input, and the decimal
 * rendering of a non-negative integer inside a template string
 * (`scanned-${Date.now()}`).
 */
module JsText {
  import opened Wrappers

  predicate IsDigit(c: char)
  {
    '0' <= c <= '9'
  }

  predicate AllDigits(s: string)
  {
    forall i :: 0 <= i < |s| ==> IsDigit(s[i])
  }

  function DigitValue(c: char): (d: nat)
    requires IsDigit(c)
    ensures d < 10
  {
    c as int - '0' as int
  }

  function DigitChar(d: nat): (c: char)
    requires d < 10
    ensures IsDigit(c) && DigitValue(c) == d
  {
    ('0' as int + d) as char
  }

  /** The decimal text of `n`, as JavaScript renders an integer: no sign and
      no leading zero. */
  function Decimal(n: nat): (s: string)
    ensures |s| > 0 && AllDigits(s)
    ensures s[0] == '0' <==> n == 0
    decreases n
  {
    if n < 10 then [DigitChar(n)] else Decimal(n / 10) + [DigitChar(n % 10)]
  }

  /** The number a run of decimal digits denotes, most significant first. */
  function DigitsValue(ds: string): nat
    requires AllDigits(ds)
    decreases |ds|
  {
    if ds == [] then 0 else DigitsValue(ds[..|ds| - 1]) * 10 + DigitValue(ds[|ds| - 1])
  }

  /** The longest prefix of `s` made of decimal digits. */
  function DigitRun(s: string): (r: string)
    ensures r <= s && AllDigits(r)
    ensures |r| < |s| ==> !IsDigit(s[|r|])
    decreases |s|
  {
    if s != [] && IsDigit(s[0]) then [s[0]] + DigitRun(s[1..]) else []
  }

  /** The text after an optional leading sign. */
  function Unsigned(s: string): string
  {
    if |s| > 0 && (s[0] == '-' || s[0] == '+') then s[1..] else s
  }

  /**
   * `parseInt(s)` for the texts a number input holds: an optional sign, then
   * the longest run of decimal digits; whatever follows (a fraction, an
   * exponent) is ignored. None stands for NaN, produced when no digit follows
   * the sign.
   */
  function ParseInt(s: string): (r: Option<int>)
    ensures r.None? <==> DigitRun(Unsigned(s)) == []
    ensures r.Some? && |s| > 0 && s[0] == '-' ==> r.value <= 0
    ensures r.Some? && !(|s| > 0 && s[0] == '-') ==> r.value >= 0
  {
    var run := DigitRun(Unsigned(s));
    if run == [] then None
    else if |s| > 0 && s[0] == '-' then Some(-(DigitsValue(run) as int))
    else Some(DigitsValue(run))
  }

  /** Reading the decimal text of `n` back gives `n`. */
  lemma {:induction false} DigitsValueOfDecimal(n: nat)
    ensures DigitsValue(Decimal(n)) == n
    decreases n
  {
    if n >= 10 {
      var s := Decimal(n);
      assert s[..|s| - 1] == Decimal(n / 10);
      DigitsValueOfDecimal(n / 10);
    }
  }

  /** The digit run of a digit string followed by a non-digit is that string. */
  lemma DigitRunStopsAt(ds: string, rest: string)
    requires AllDigits(ds)
    requires rest == [] || !IsDigit(rest[0])
    ensures DigitRun(ds + rest) == ds
  {
    assert (ds + rest)[..|ds|] == ds;
  }

  /** `parseInt` recovers an integer from its decimal text, signed or not,
      whatever non-digit text follows it. */
  lemma ParseIntOfDecimal(n: nat, rest: string)
    requires rest == [] || !IsDigit(rest[0])
    ensures ParseInt(Decimal(n) + rest) == Some(n)
    ensures ParseInt("-" + Decimal(n) + rest) == Some(-(n as int))
  {
    DigitRunStopsAt(Decimal(n), rest);
    DigitsValueOfDecimal(n);
    assert Unsigned(Decimal(n) + rest) == Decimal(n) + rest;
    assert Unsigned("-" + Decimal(n) + rest) == Decimal(n) + rest;
  }

  /** Distinct integers have distinct decimal texts. */
  lemma DecimalInjective(a: nat, b: nat)
    ensures Decimal(a) == Decimal(b) ==> a == b
  {
    DigitsValueOfDecimal(a);
    DigitsValueOfDecimal(b);
  }
}

=== FILE: players.dfy ===
/**
 * The signed-in player record the intake builds and the dashboard keeps: one
 * field per entry of the object literal the intake constructs, with the
 * sign-in state in `status`.
 */
module Players {

  datatype Status = Pending | Approved | Rejected

  datatype SignedInPlayer = SignedInPlayer(
    id: string,
    name: string,
    avatar: string,
    gameId: string,
    venueName: string,
    foodDrinkAmount: int,
    foodDrinkChips: int,
    isVIP: bool,
    vipChips: int,
    isDealer: bool,
    dealerChips: int,
    totalChips: int,
    timestamp: string,
    status: Status)
}

=== FILE: qrscanner.dfy ===
/**
 * The director-facing intake: pasted sign-in data, already run through
 * `JSON.parse`, is checked for its two required fields and turned into a
 * pending player record, or the dialog shows its error line.
 */
module QRScanner {
  import opened Wrappers
  import JsText
  import opened Players
  import SignIn

  /** One property read off the parsed object: `undefined` when the key is
      missing, JSON `null`, or a value of the field's type. */
  datatype Field<T> = Absent | Null | Present(value: T)

  /** The properties of the parsed object that the intake reads. */
  datatype Payload = Payload(
    gameId: Field<string>,
    playerName: Field<string>,
    venueName: Field<string>,
    foodDrinkAmount: Field<int>,
    foodDrinkChips: Field<int>,
    isVIP: Field<bool>,
    vipChips: Field<int>,
    isDealer: Field<bool>,
    dealerChips: Field<int>,
    totalChips: Field<int>,
    timestamp: Field<string>)

  /** What `JSON.parse` made of the input: a syntax error, a value that is not
      an object (a number, a string, an array, null), or an object. */
  datatype Parsed = Malformed | NotAnObject | Object(payload: Payload)

  /** Both failures are caught by the same handler and show the same text. */
  datatype IntakeError = MalformedPayload | MissingRequiredField

  const GuestName := "Guest Player"
  const IdPrefix := "scanned-"
  const AvatarPrefix := "https://i.pravatar.cc/150?img="
  /** `Math.floor(Math.random() * 70)` picks one of this many avatars. */
  const AvatarCount := 70
  const ErrorText := "Invalid QR code data. Please try again."

  // JavaScript truthiness of a field: undefined, null, "", 0 and false are falsy.

  predicate TruthyStr(f: Field<string>)
  {
    f.Present? && f.value != ""
  }

  predicate TruthyInt(f: Field<int>)
  {
    f.Present? && f.value != 0
  }

  predicate TruthyBool(f: Field<bool>)
  {
    f.Present? && f.value
  }

  /** `f || d` on a text field. */
  function OrStr(f: Field<string>, d: string): string
  {
    if TruthyStr(f) then f.value else d
  }

  /** `f || d` on a numeric field. */
  function OrInt(f: Field<int>, d: int): int
  {
    if TruthyInt(f) then f.value else d
  }

  /** `f || d` on a boolean field. */
  function OrBool(f: Field<bool>, d: bool): bool
  {
    if TruthyBool(f) then f.value else d
  }

  /** `!data.gameId || data.totalChips === undefined` rejects: the game id must
      be truthy, the total need only be present (0 and null pass). */
  predicate HasRequiredFields(p: Payload)
  {
    TruthyStr(p.gameId) && !p.totalChips.Absent?
  }

  /** `scanned-${Date.now()}`: one id per clock reading. */
  function ScannedId(now: nat): (id: string)
    ensures |id| > |IdPrefix| && id[..|IdPrefix|] == IdPrefix
  {
    IdPrefix + JsText.Decimal(now)
  }

  /** Scans taken at different instants get different ids. */
  lemma ScannedIdInjective(a: nat, b: nat)
    ensures ScannedId(a) == ScannedId(b) ==> a == b
  {
    if ScannedId(a) == ScannedId(b) {
      assert JsText.Decimal(a) == ScannedId(a)[|IdPrefix|..];
      assert JsText.Decimal(b) == ScannedId(b)[|IdPrefix|..];
      JsText.DecimalInjective(a, b);
    }
  }

  /**
   * The intake's parse-and-validate step. `now` is `Date.now()`,
   * `avatarIndex` is the random avatar number and `nowIso` is
   * `new Date().toISOString()`.
   */
  function ParseQR(parsed: Parsed, now: nat, avatarIndex: nat, nowIso: string): (r: Result<SignedInPlayer, IntakeError>)
    requires avatarIndex < AvatarCount
    ensures r.Success? <==> parsed.Object? && HasRequiredFields(parsed.payload)
    ensures parsed.Malformed? ==> r == Failure(MalformedPayload)
    ensures !parsed.Malformed? && r.Failure? ==> r.error == MissingRequiredField
    // a new pending record, for the game named, under a fresh scan id
    ensures r.Success? ==> r.value.status == Pending && r.value.id == ScannedId(now)
    ensures r.Success? ==> Present(r.value.gameId) == parsed.payload.gameId
    ensures r.Success? ==> r.value.avatar == AvatarPrefix + JsText.Decimal(avatarIndex)
    // truthy fields are copied verbatim ...
    ensures r.Success? ==> var p, pl := parsed.payload, r.value;
      && (TruthyStr(p.playerName) ==> pl.name == p.playerName.value)
      && (TruthyStr(p.venueName) ==> pl.venueName == p.venueName.value)
      && (TruthyStr(p.timestamp) ==> pl.timestamp == p.timestamp.value)
      && (TruthyInt(p.foodDrinkAmount) ==> pl.foodDrinkAmount == p.foodDrinkAmount.value)
      && (TruthyInt(p.foodDrinkChips) ==> pl.foodDrinkChips == p.foodDrinkChips.value)
      && (TruthyInt(p.vipChips) ==> pl.vipChips == p.vipChips.value)
      && (TruthyInt(p.dealerChips) ==> pl.dealerChips == p.dealerChips.value)
      && (TruthyInt(p.totalChips) ==> pl.totalChips == p.totalChips.value)
      && (TruthyBool(p.isVIP) ==> pl.isVIP)
      && (TruthyBool(p.isDealer) ==> pl.isDealer)
    // ... and falsy ones take their defaults
    ensures r.Success? ==> var p, pl := parsed.payload, r.value;
      && (!TruthyStr(p.playerName) ==> pl.name == GuestName)
      && (!TruthyStr(p.venueName) ==> pl.venueName == "")
      && (!TruthyStr(p.timestamp) ==> pl.timestamp == nowIso)
      && (!TruthyInt(p.foodDrinkAmount) ==> pl.foodDrinkAmount == 0)
      && (!TruthyInt(p.foodDrinkChips) ==> pl.foodDrinkChips == 0)
      && (!TruthyInt(p.vipChips) ==> pl.vipChips == 0)
      && (!TruthyInt(p.dealerChips) ==> pl.dealerChips == 0)
      && (!TruthyInt(p.totalChips) ==> pl.totalChips == 0)
      && (!TruthyBool(p.isVIP) ==> !pl.isVIP)
      && (!TruthyBool(p.isDealer) ==> !pl.isDealer)
  {
    match parsed
    case Malformed => Failure(MalformedPayload)
    // for a JSON null the field read throws instead; the handler treats both alike
    case NotAnObject => Failure(MissingRequiredField)
    case Object(p) =>
      if !HasRequiredFields(p) then Failure(MissingRequiredField)
      else Success(SignedInPlayer(
        id := ScannedId(now),
        name := OrStr(p.playerName, GuestName),
        avatar := AvatarPrefix + JsText.Decimal(avatarIndex),
        gameId := p.gameId.value,
        venueName := OrStr(p.venueName, ""),
        foodDrinkAmount := OrInt(p.foodDrinkAmount, 0),
        foodDrinkChips := OrInt(p.foodDrinkChips, 0),
        isVIP := OrBool(p.isVIP, false),
        vipChips := OrInt(p.vipChips, 0),
        isDealer := OrBool(p.isDealer, false),
        dealerChips := OrInt(p.dealerChips, 0),
        totalChips := OrInt(p.totalChips, 0),
        timestamp := OrStr(p.timestamp, nowIso),
        status := Pending))
  }

  /** Every chip field that is present in an accepted payload arrives unchanged:
      the default a falsy `|| 0` or `|| false` substitutes equals the falsy
      value itself. A `venueName` that is present arrives unchanged too. */
  lemma PresentChipFieldsPreserved(p: Payload, now: nat, avatarIndex: nat, nowIso: string)
    requires avatarIndex < AvatarCount
    requires HasRequiredFields(p)
    ensures var pl := ParseQR(Object(p), now, avatarIndex, nowIso).value;
      && (p.foodDrinkAmount.Present? ==> pl.foodDrinkAmount == p.foodDrinkAmount.value)
      && (p.foodDrinkChips.Present? ==> pl.foodDrinkChips == p.foodDrinkChips.value)
      && (p.isVIP.Present? ==> pl.isVIP == p.isVIP.value)
      && (p.vipChips.Present? ==> pl.vipChips == p.vipChips.value)
      && (p.isDealer.Present? ==> pl.isDealer == p.isDealer.value)
      && (p.dealerChips.Present? ==> pl.dealerChips == p.dealerChips.value)
      && (p.totalChips.Present? ==> pl.totalChips == p.totalChips.value)
      && (p.venueName.Present? ==> pl.venueName == p.venueName.value)
  {
  }

  /** A payload with no properties at all (`{}`). */
  const EmptyPayload := Payload(Absent, Absent, Absent, Absent, Absent, Absent, Absent, Absent, Absent, Absent, Absent)

  /** `{}` is rejected for missing fields. */
  lemma EmptyObjectRejected(now: nat, avatarIndex: nat, nowIso: string)
    requires avatarIndex < AvatarCount
    ensures ParseQR(Object(EmptyPayload), now, avatarIndex, nowIso) == Failure(MissingRequiredField)
  {
  }

  /** `{"gameId":"7","totalChips":0}` is accepted: a total of 0 is present. */
  lemma ZeroTotalAccepted(now: nat, avatarIndex: nat, nowIso: string)
    requires avatarIndex < AvatarCount
    ensures var r := ParseQR(Object(EmptyPayload.(gameId := Present("7"), totalChips := Present(0))), now, avatarIndex, nowIso);
      r.Success? && r.value.totalChips == 0 && r.value.name == GuestName && r.value.status == Pending && r.value.gameId == "7"
  {
  }

  /** An explicit `"totalChips": null` passes the `=== undefined` check and
      becomes 0, while an empty game id is refused. */
  lemma NullTotalAcceptedEmptyGameRefused(now: nat, avatarIndex: nat, nowIso: string)
    requires avatarIndex < AvatarCount
    ensures var r := ParseQR(Object(EmptyPayload.(gameId := Present("7"), totalChips := Null)), now, avatarIndex, nowIso);
      r.Success? && r.value.totalChips == 0
    ensures ParseQR(Object(EmptyPayload.(gameId := Present(""), totalChips := Present(4000))), now, avatarIndex, nowIso).Failure?
  {
  }

  /** The chip fields are taken on trust: a payload whose total disagrees with
      the composer's formula is accepted as it stands. */
  lemma ChipsNotCrossChecked(now: nat, avatarIndex: nat, nowIso: string)
    requires avatarIndex < AvatarCount
    ensures var r := ParseQR(Object(EmptyPayload.(gameId := Present("7"), foodDrinkAmount := Present(1), totalChips := Present(99999))), now, avatarIndex, nowIso);
      r.Success? && r.value.totalChips == 99999 &&
      r.value.totalChips != SignIn.TotalChipsOf(r.value.foodDrinkAmount, r.value.isVIP, r.value.isDealer)
  {
  }

  /** The canned record of the demo scan button. */
  function SimulatedPlayer(now: nat, nowIso: string): (r: SignedInPlayer)
    ensures r.status == Pending && r.id == ScannedId(now) && r.gameId == "7"
    ensures 0 <= r.foodDrinkAmount <= SignIn.MaxFoodDrink
    ensures r.foodDrinkChips == SignIn.FoodDrinkChips(r.foodDrinkAmount)
    ensures r.vipChips == SignIn.VipChips(r.isVIP) && r.dealerChips == SignIn.DealerChips(r.isDealer)
    ensures r.totalChips == SignIn.TotalChipsOf(r.foodDrinkAmount, r.isVIP, r.isDealer)
    ensures r.foodDrinkAmount == 25 && !r.isVIP && r.isDealer && r.totalChips == 4000
  {
    SignedInPlayer(
      id := ScannedId(now),
      name := "James W.",
      avatar := AvatarPrefix + "3",
      gameId := "7",
      venueName := "Marlow's Tavern",
      foodDrinkAmount := 25,
      foodDrinkChips := 2500,
      isVIP := false,
      vipChips := 0,
      isDealer := true,
      dealerChips := 1500,
      totalChips := 4000,
      timestamp := nowIso,
      status := Pending)
  }

  /** What the dialog asks its toast collaborator to show. */
  datatype Notice = QrScanned

  class ScannerDialog {
    var manualInput: string
    var showManual: bool
    var error: string

    constructor ()
      ensures manualInput == "" && !showManual && error == ""
    {
      manualInput := "";
      showManual := false;
      error := "";
    }

    /** Editing the paste area. */
    method SetManualInput(text: string)
      modifies this
      ensures manualInput == text && showManual == old(showManual) && error == old(error)
    {
      manualInput := text;
    }

    /** "Paste QR Data Manually" (true) and "Back" (false). */
    method SetShowManual(show: bool)
      modifies this
      ensures showManual == show && manualInput == old(manualInput) && error == old(error)
    {
      showManual := show;
    }

    /**
     * "Parse Data": `parsed` is what `JSON.parse(manualInput)` produced. The
     * result is the record handed to `onScanned`, if any. On failure the
     * error line is set and the pasted text stays for correction; on success
     * the error is cleared, the text emptied and manual mode left.
     */
    method HandleParseQR(parsed: Parsed, now: nat, avatarIndex: nat, nowIso: string) returns (scanned: Option<SignedInPlayer>)
      requires avatarIndex < AvatarCount
      modifies this
      ensures scanned == ParseQR(parsed, now, avatarIndex, nowIso).ToOption()
      ensures scanned.None? ==> error == ErrorText && manualInput == old(manualInput) && showManual == old(showManual)
      ensures scanned.Some? ==> error == "" && manualInput == "" && !showManual
    {
      error := "";
      var r := ParseQR(parsed, now, avatarIndex, nowIso);
      match r
      case Failure(_) =>
        error := ErrorText;
        scanned := None;
      case Success(player) =>
        scanned := Some(player);
        manualInput := "";
        showManual := false;
    }

    /** "Simulate QR Scan": hands over the canned record and raises a notice;
        the dialog's own fields are untouched. */
    method HandleSimulateScan(now: nat, nowIso: string) returns (scanned: SignedInPlayer, notice: Notice)
      ensures scanned == SimulatedPlayer(now, nowIso) && notice == QrScanned
    {
      scanned := SimulatedPlayer(now, nowIso);
      notice := QrScanned;
    }
  }
}

=== FILE: signin.dfy ===
/**
 * The player-facing sign-in composer: a food-and-drink commitment clamped to
 * whole dollars 0..30, a VIP switch that can only be turned off, and a free
 * dealer switch, from which the bonus chips are derived.
 */
module SignIn {
  import opened Wrappers
  import JsText

  const MaxFoodDrink := 30
  const ChipsPerDollar := 100
  const VipBonus := 1500
  const DealerBonus := 1500
  /** The amount the -/+ steppers move by. */
  const Step := 5

  /** `Math.max(0, Math.min(30, value))`. */
  function ClampAmount(value: int): (r: int)
    ensures 0 <= r <= MaxFoodDrink
    ensures 0 <= value <= MaxFoodDrink ==> r == value
    ensures value < 0 ==> r == 0
    ensures value > MaxFoodDrink ==> r == MaxFoodDrink
  {
    var upper := if value < MaxFoodDrink then value else MaxFoodDrink;
    if upper > 0 then upper else 0
  }

  /** 100 chips per dollar: whole hundreds, from which the dollars are recovered. */
  function FoodDrinkChips(amount: int): (c: int)
    ensures c % ChipsPerDollar == 0 && c / ChipsPerDollar == amount
    ensures 0 <= amount <= MaxFoodDrink ==> 0 <= c <= MaxFoodDrink * ChipsPerDollar
  {
    amount * ChipsPerDollar
  }

  function VipChips(isVIP: bool): (c: int)
    ensures c == 0 || c == VipBonus
    ensures c != 0 <==> isVIP
  {
    if isVIP then VipBonus else 0
  }

  function DealerChips(isDealer: bool): (c: int)
    ensures c == 0 || c == DealerBonus
    ensures c != 0 <==> isDealer
  {
    if isDealer then DealerBonus else 0
  }

  /** The bonus-chip total shown in the dialog: the food-and-drink chips plus
      1500 per flag set; always whole hundreds, and at most 6000 for an amount
      in range (4500 without VIP). */
  function TotalChipsOf(amount: int, isVIP: bool, isDealer: bool): (r: int)
    ensures r % ChipsPerDollar == 0
    ensures 0 <= amount <= MaxFoodDrink ==> 0 <= r <= 6000
    ensures 0 <= amount <= MaxFoodDrink && !isVIP ==> r <= 4500
    ensures r - FoodDrinkChips(amount) in {0, 1500, 3000}
    ensures r == FoodDrinkChips(amount) <==> !isVIP && !isDealer
    ensures r == FoodDrinkChips(amount) + 3000 <==> isVIP && isDealer
  {
    FoodDrinkChips(amount) + VipChips(isVIP) + DealerChips(isDealer)
  }

  /** The amount the number input hands over: `parseInt(text) || 0`, so text
      with no leading integer (NaN) counts as 0. */
  function TypedValue(text: string): (v: int)
    ensures JsText.ParseInt(text).None? ==> v == 0
    ensures JsText.ParseInt(text).Some? ==> v == JsText.ParseInt(text).value
  {
    match JsText.ParseInt(text)
    case None => 0
    case Some(n) => if n == 0 then 0 else n
  }

  /** Typing the decimal text of an amount sets that amount, capped at 30. */
  lemma TypedDecimalAmount(n: nat, rest: string)
    requires rest == [] || !JsText.IsDigit(rest[0])
    ensures ClampAmount(TypedValue(JsText.Decimal(n) + rest)) == if n <= MaxFoodDrink then n else MaxFoodDrink
    ensures ClampAmount(TypedValue("-" + JsText.Decimal(n) + rest)) == 0
  {
    JsText.ParseIntOfDecimal(n, rest);
  }

  /** What the dialog asks its toast collaborator to show. */
  datatype Notice = VipMembershipRequired | SignedIn(venueName: string, bonusChips: int)

  class SignInDialog {
    const venueName: string
    /** The `open` prop, which the dialog closes through `onOpenChange`. */
    var open: bool
    var foodDrinkAmount: int
    var isVIP: bool
    var isDealer: bool

    /** The amount stays clamped, and VIP, off at the start, is never turned on. */
    ghost predicate Valid()
      reads this
    {
      0 <= foodDrinkAmount <= MaxFoodDrink && !isVIP
    }

    constructor (venueName: string, open: bool)
      ensures Valid()
      ensures this.venueName == venueName && this.open == open
      ensures foodDrinkAmount == 0 && !isVIP && !isDealer
    {
      this.venueName := venueName;
      this.open := open;
      foodDrinkAmount := 0;
      isVIP := false;
      isDealer := false;
    }

    /** The parent opening the dialog, or the dialog asking to be dismissed
        through `onOpenChange`: only the open state changes, the form keeps its
        inputs. */
    method SetOpen(open: bool)
      requires Valid()
      modifies this
      ensures Valid()
      ensures this.open == open
      ensures foodDrinkAmount == old(foodDrinkAmount) && isVIP == old(isVIP) && isDealer == old(isDealer)
    {
      this.open := open;
    }

    /** The total, recomputed from the current fields. */
    function TotalChips(): (r: int)
      reads this
      requires Valid()
      ensures 0 <= r <= 4500 && r % ChipsPerDollar == 0
      ensures r == FoodDrinkChips(foodDrinkAmount) + DealerChips(isDealer)
    {
      TotalChipsOf(foodDrinkAmount, isVIP, isDealer)
    }

    /** The - stepper is disabled at 0 and below. */
    predicate MinusEnabled()
      reads this
    {
      !(foodDrinkAmount <= 0)
    }

    /** The + stepper is disabled at 30 and above. */
    predicate PlusEnabled()
      reads this
    {
      !(foodDrinkAmount >= MaxFoodDrink)
    }

    method HandleFoodDrinkChange(value: int)
      requires Valid()
      modifies this
      ensures Valid()
      ensures foodDrinkAmount == ClampAmount(value)
      ensures isVIP == old(isVIP) && isDealer == old(isDealer) && open == old(open)
    {
      foodDrinkAmount := ClampAmount(value);
    }

    /** Typing into the number input. */
    method HandleTypedAmount(text: string)
      requires Valid()
      modifies this
      ensures Valid()
      ensures foodDrinkAmount == ClampAmount(TypedValue(text))
      ensures JsText.ParseInt(text).None? ==> foodDrinkAmount == 0
      ensures isVIP == old(isVIP) && isDealer == old(isDealer) && open == old(open)
    {
      HandleFoodDrinkChange(TypedValue(text));
    }

    /** The - stepper: five dollars down, never below 0; a no-op while disabled. */
    method PressMinus()
      requires Valid()
      modifies this
      ensures Valid()
      ensures foodDrinkAmount == if old(foodDrinkAmount) >= Step then old(foodDrinkAmount) - Step else 0
      ensures isVIP == old(isVIP) && isDealer == old(isDealer) && open == old(open)
    {
      if MinusEnabled() {
        HandleFoodDrinkChange(foodDrinkAmount - Step);
      }
    }

    /** The + stepper: five dollars up, never above 30; a no-op while disabled. */
    method PressPlus()
      requires Valid()
      modifies this
      ensures Valid()
      ensures foodDrinkAmount == if old(foodDrinkAmount) <= MaxFoodDrink - Step then old(foodDrinkAmount) + Step else MaxFoodDrink
      ensures isVIP == old(isVIP) && isDealer == old(isDealer) && open == old(open)
    {
      if PlusEnabled() {
        HandleFoodDrinkChange(foodDrinkAmount + Step);
      }
    }

    /** Switching VIP on only raises the membership notice; switching it off
        clears the flag. */
    method HandleVIPToggle(checked: bool) returns (notice: Option<Notice>)
      requires Valid()
      modifies this
      ensures Valid()
      ensures checked ==> notice == Some(VipMembershipRequired) && isVIP == old(isVIP)
      ensures !checked ==> notice == None && !isVIP
      ensures foodDrinkAmount == old(foodDrinkAmount) && isDealer == old(isDealer) && open == old(open)
    {
      if checked {
        return Some(VipMembershipRequired);
      }
      isVIP := false;
      notice := None;
    }

    /** The dealer switch sets the flag to exactly the value given. */
    method SetDealer(checked: bool)
      requires Valid()
      modifies this
      ensures Valid()
      ensures isDealer == checked
      ensures foodDrinkAmount == old(foodDrinkAmount) && isVIP == old(isVIP) && open == old(open)
    {
      isDealer := checked;
    }

    /** Reports the total reached, closes the dialog and resets the form. */
    method HandleCompleteSignIn() returns (notice: Notice)
      requires Valid()
      modifies this
      ensures Valid()
      ensures notice == SignedIn(venueName, old(TotalChips()))
      ensures !open
      ensures foodDrinkAmount == 0 && !isVIP && !isDealer
      ensures TotalChips() == 0
    {
      notice := SignedIn(venueName, TotalChips());
      open := false;
      foodDrinkAmount := 0;
      isVIP := false;
      isDealer := false;
    }
  }
}

=== FILE: wrappers.dfy ===
/** Option and Result values shared by the modules of the sign-in model. */
module Wrappers {

  datatype Option<+T> = None | Some(value: T)

  datatype Result<+R, +E> = Success(value: R) | Failure(error: E) {

    /** The success value, or None on failure. */
    function ToOption(): Option<R>
    {
      match this
      case Success(v) => Some(v)
      case Failure(_) => None
    }
  }
}
